=== FILE: README.md ===
# fsvacuum decision logic in Dafny

fsvacuum walks the tree under the current directory and reports or deletes
build-artifact directories (`target`, `node_modules`, `zig-out`, `zig-cache`).
It also runs a few housekeeping chores on well-known cache locations. This
project models the tool's decision logic and proves properties of it:

- `registry.dfy` (module `Registry`): the argument scan (`parse_types`). It has
  the fixed token table, the chores requested by `v`, `nvim` and `cache`, the
  early exit when no target name is produced, and the run mode (`clean`
  present or not).
- `paths.dfy` (module `Paths`): splitting a path string on `'/'` the way a
  string split does (empty segments kept), its inverse `Join`, and the count
  of segments that are target names.
- `classifier.dfy` (module `Classifier`): `handle_path`. It decides Ignore (the
  name is not a target), Suppressed (more than one segment is a target name),
  Erase (clean mode) or Report (dry-run mode). `HandlePath` runs the source's
  counting loop.
- `consumer.dfy` (module `Consumer`): what the consumer thread does with one
  entry and with a stream of entries. It skips entries known to be files and
  entries that no longer exist, and turns each erase or report decision into
  one effect.
- `housekeeping.dfy` (module `Housekeeping`): `clear_cache`, `nvim_swap` and
  `v_modules`, modelled as decisions.
- `vacuum.dfy` (module `Vacuum`): one run, as the consumer thread's receive
  loop `Consume`. The target list is built lazily, the first time the
  classifier needs it (src/main.rs:19-22, 117). So the argument scan, its
  chores and its zero-types exit happen when the first entry that passes the
  filter and still exists arrives. Before that, no chore has run. A stream in
  which no entry gets that far ends normally without scanning the arguments
  (`Quiet`). A chore that aborts there kills the consumer thread before
  anything is classified, and `main` then panics on the join (`Aborted`). With
  no target name the process exits at once (`ZeroTypes`). Otherwise every
  entry is handled (`Walked`).
- `wrappers.dfy` (module `Wrappers`): `Option` and `Result`.

The process-wide `ARGS` and `TYPES` become parameters. "Is `clean` among the
arguments" becomes a `RunMode`. Filesystem facts become inputs:

- Whether an entry still exists is a field of the entry.
- Whether a removal would succeed is membership in a `removable` set.
- Whether the cache directory exists is membership in an `existing` set.
- The home and platform cache directories are `Option<string>`.

Deletions and printed lines are emitted as values. A panic is a `Failure`
carrying an `Abort` reason.

Behaviour a reader may not expect:

- The target list keeps duplicates (`zig zig` gives four names). The classifier
  only asks whether a name is in the list, so duplicates never change a
  decision (`ClassifyReadsTypesAsSet`).
- In dry-run mode, `v_modules` prints its "found" line without checking that
  the directory exists. In clean mode it prints "erased" whether or not the
  removal succeeded.
- With no platform cache directory, `clear_cache` falls back to `.cache` under
  the home directory. It aborts when there is no home directory, or when the
  directory it chose does not exist.
- The home directory is unwrapped before the clean check in `v_modules` and
  `nvim_swap`. A missing home therefore aborts even in dry-run mode.
- The argument scan runs on the consumer thread, at the first entry that
  reaches the classifier, not at start-up.
- `handle_path` prints "erased" after every removal attempt, successful or
  not. An `Erased` effect stands for that attempt and its line.

## Model

| member | source | states |
|---|---|---|
| Registry.ParseTypes | src/main.rs:92-113 | The loop over the tokens returns `None` (exit 0, nothing classified) exactly when no name was pushed. Otherwise it returns the non-empty list of names pushed in argument order. It also returns the chores requested, in argument order. |
| Registry.TypesOfAppend | src/main.rs:94-107 | Scanning `a + b` pushes the names of `a` and then those of `b`, so names come token by token in argument order. |
| Registry.UnrecognizedTokenPushesNothing | src/main.rs:102-105 | Any token other than `rust`, `js` or `zig` (including `clean`, `v`, `nvim`, `cache`) can be removed wherever it stands without changing the names. |
| Registry.TypesOfAreKnown | src/main.rs:95-101 | Every pushed name is one of `target`, `node_modules`, `zig-out`, `zig-cache`. |
| Registry.TypesOfLength | src/main.rs:94-107 | Duplicates are kept. The list holds one name per `rust` and per `js` token and two per `zig` token. |
| Registry.TypesOfMembership | src/main.rs:95-101 | `target` is a name iff `rust` is an argument, and `node_modules` iff `js` is. `zig-out` and `zig-cache` are names iff `zig` is an argument. |
| Registry.ZeroTypesIffNoModeToken | src/main.rs:108-111 | The name list is empty exactly when none of `rust`, `js`, `zig` is an argument. |
| Registry.ChoresOfAppend | src/main.rs:94-107 | Scanning `a + b` requests the chores of `a` and then those of `b`, so chores come in argument order. |
| Registry.ChoresOfToken | src/main.rs:102-105 | A single token requests `v`→V modules, `nvim`→swap files, `cache`→caches, and nothing for any other token. |
| Registry.ChoresOfCount | src/main.rs:102-104 | Per kind, there are as many chores as tokens of that kind (`v`, `nvim`, `cache`), and no others. |
| Paths.Split | src/main.rs:120-125 | Splitting on `'/'` always yields at least one segment. |
| Paths.SplitHasNoSeparator | src/main.rs:123 | No segment contains `'/'`. |
| Paths.SplitWithoutSeparator | src/main.rs:123 | A string without `'/'` is its own single segment. |
| Paths.SplitAround | src/main.rs:123 | Splitting `a + "/" + b` yields the segments of `a` followed by those of `b`. |
| Paths.JoinSplit | src/main.rs:120-125 | Joining the segments back with `'/'` restores the path (no characters lost). |
| Paths.SplitJoin | src/main.rs:120-125 | Splitting joined separator-free segments gives exactly those segments back. |
| Paths.CountMatches | src/main.rs:126-131 | The number of matching segments never exceeds the number of segments. |
| Paths.CountMatchesAppend | src/main.rs:126-131 | The count over a concatenation is the sum of the counts of its parts. |
| Paths.CountMatchesPositive | src/main.rs:126-131 | The count is positive iff some segment is a target name. |
| Paths.CountMatchesAboveOne | src/main.rs:126-134 | The count exceeds one iff two distinct segment positions hold target names. |
| Paths.CountMatchesSameNames | src/main.rs:128 | The count depends only on which names are in the target list, not on their order or repetition. |
| Classifier.HandlePath | src/main.rs:115-141 | The membership test, the counting loop and the mode test together return the decision `Classify` specifies. The loop invariant is the count of the segments seen so far. |
| Classifier.ClassifyCases | src/main.rs:115-141 | Ignore iff the name is not a target. Suppressed iff the name is a target and two distinct segments are target names. Erase iff acted on in clean mode. Report iff acted on in dry-run mode. |
| Classifier.DryRunNeverErases | src/main.rs:135-140 | Dry-run mode never yields Erase. Clean mode erases exactly what dry-run mode reports. |
| Classifier.SuppressedIffTargetAncestor | src/main.rs:120-134 | When the name is the last segment, the candidate is suppressed iff some earlier segment is also a target name. |
| Classifier.NestedTargetSuppressed | src/main.rs:120-134 | A target directory inside another target directory (`outer/inner`, both base names targets) is suppressed in every mode. |
| Classifier.ClassifyReadsTypesAsSet | src/main.rs:117-128 | Two target lists with the same members give the same decision, so duplicate names never cause a second action. |
| Classifier.NestedRustTargetScenario | src/main.rs:120-134 | `<root>/target/<d1>/<d2>/target` is suppressed when the target list is `["target"]`. |
| Classifier.TopRustTargetScenario | src/main.rs:132-137 | `<root>/target` is erased in clean mode when the root is not itself `target`. |
| Classifier.ThreeSegmentsLastTarget | src/main.rs:120-134 | A three-segment path whose only target segment is the last one splits into those three segments and is acted on. |
| Classifier.PackageNodeModulesScenario | src/main.rs:120-140 | `<root>/<pkg>/node_modules` is acted on: reported in dry-run mode, erased in clean mode. |
| Consumer.UnreachedYieldNothing | src/main.rs:148-156 | Entries that are files or no longer exist never yield an effect. |
| Consumer.EntryEffectsCases | src/main.rs:148-156 | The filter drops an entry only when its type is known to be a file; an unknown type passes. A passing entry yields the mode's action iff it still exists and is acted on, and nothing otherwise. |
| Consumer.EffectsAppend | src/main.rs:147-157 | Consuming `a + b` yields the effects of `a` and then those of `b`, so order is preserved. |
| Consumer.EffectsExactly | src/main.rs:147-156 | An effect occurs iff some entry passes the filter, still exists and is acted on, and the effect is the mode's action on that entry's path. |
| Consumer.DryRunOnlyReports | src/main.rs:135-140 | Without `clean`, every effect of a whole stream of entries is a report; nothing is deleted. |
| Consumer.EffectsAtMostOnePerEntry | src/main.rs:147-157 | There are never more effects than entries. |
| Housekeeping.RemoveCachesSound | src/main.rs:24-29 | Every removed cache is a table entry whose subdirectory was removable. |
| Housekeeping.RemoveCachesNoRepeat | src/main.rs:44-58 | No subdirectory is removed twice, even though `pylint` is listed twice. |
| Housekeeping.RemoveCachesComplete | src/main.rs:44-58 | Every removable subdirectory named in the table is removed. |
| Housekeeping.ClearCacheDecisions | src/main.rs:32-58 | Dry-run mode does nothing. The missing-home abort happens iff clean mode has no platform cache directory and no home. The missing-directory abort happens iff clean mode has a directory to use but it does not exist. The chore fails iff one of these holds. A successful clean pass removes exactly the removable table subdirectories, each once. |
| Housekeeping.NvimSwap | src/main.rs:61-78 | A missing home aborts. An unreadable swap directory ends the chore quietly. Dry-run mode reports only the first file, or nothing when the directory is empty. Clean mode names exactly the removed files, in listing order. |
| Housekeeping.SwapRemovalsExactly | src/main.rs:66-77 | In clean mode, a removal line names a file iff it is listed and removable. There is at most one line per listed file. |
| Housekeeping.VModulesDecisions | src/main.rs:80-90 | The V modules chore aborts iff there is no home directory, in either mode. With a home, dry-run mode only announces the directory. The chore erases only in clean mode with a home directory, and then it always erases `.vmodules` under home. |
| Housekeeping.RunChoresInOrder | src/main.rs:94-107 | Chores run in argument order. Each report is that of the chore at the same position. The sequence aborts iff some chore aborts, with the abort of the first one that does. Otherwise there is one report per chore. |
| Housekeeping.DryRunChoreRemovesNothing | src/main.rs:32-90 | In dry-run mode a chore that completes removes nothing: no cache subdirectory, no swap file, no V modules directory. |
| Housekeeping.DryRunChoresAbortOnlyWithoutHome | src/main.rs:32-90 | In dry-run mode the cache chore never aborts. The swap and V modules chores abort iff there is no home directory. |
| Vacuum.Consume | src/main.rs:146-157 | The receive loop returns `Run`. It skips files and entries that no longer exist, scans the arguments and runs the chores at the first entry that reaches the classifier, stops on an abort or on zero types, and otherwise classifies that entry and every later one. |
| Vacuum.RunDecisions | src/main.rs:92-157 | Quiet iff no entry reaches the classifier. Otherwise the chores have run in order. Aborted iff some chore aborts. ZeroTypes iff no chore aborts and no mode token is given. A walked run's classified lines are exactly the mode's action (report or erase) on the path of each acted-on entry. Without `clean` nothing is erased: every classified line is a report and every chore report removes nothing. An erase happens iff `clean` is given, the run walks, and the path is that of an acted-on entry. |
| Vacuum.QuietRunDoesNothing | src/main.rs:146-152 | A stream of plain files only, or an empty one, scans no arguments, runs no chore and classifies nothing. |

## Left out

- The parallel walker and the bounded channel (`WalkBuilder`, `build_parallel`, `crossbeam_channel`, the thread spawn and join) are concurrency and a foreign library. The consumer is modelled as processing a sequence of entries in channel order. After an abort, the walker's further failed sends and the final panic in `main` are summed up as the `Aborted` outcome. Walker completeness (every directory is visited) is not modelled, so the idempotence of two clean runs is not stated.
- The filesystem calls (`remove_dir_all`, `remove_file`, `read_dir`, `exists`, `cache_dir`, `home_dir`) are I/O. Their results are inputs, and deletions are emitted values. The model does not follow how one erase removes entries that come later in the stream; those entries' existence flag stands for it.
- Housekeeping.NvimSwap: an I/O error on a single directory entry (the `file.unwrap()` panic) is not modelled. Listed file names are assumed readable.
- Timing and the worker count (`Instant`, `num_cpus`) depend on the clock and the environment.
- The printed text, lossy `OsStr` conversion and `std::process::exit` are output details. Paths and names are plain strings, and the exit is the `ZeroTypes` outcome.
- Housekeeping.RunChores: every chore sees the same machine state (`Env`). A repeated `cache` or `nvim` token would, in the program, find the first run's removals already done; the model reports them again.

=== FILE: classifier.dfy ===
/**
 * The path classifier: given one directory path, its base name, the target
 * list and the run mode, decide whether the path is not a target, is a target
 * nested inside another target (and so left to the outer one), or is acted on
 * by erasing it or by reporting it.
 */
module Classifier {
  import opened Paths
  import opened Registry

  datatype Decision = Ignore | Suppressed | Erase | Report

  /** The decision for one candidate. */
  function Classify(path: string, name: string, types: seq<string>, mode: RunMode): Decision
  {
    if name !in types then Ignore
    else if CountMatches(Split(path), types) > 1 then Suppressed
    else if mode == Clean then Erase
    else Report
  }

  /**
   * The classifier as the source runs it: a membership test, then a loop that
   * counts the target segments one by one.
   */
  method HandlePath(path: string, folderName: string, types: seq<string>, mode: RunMode)
    returns (d: Decision)
    ensures d == Classify(path, folderName, types, mode)
  {
    if folderName !in types {
      return Ignore;
    }
    var nested := Split(path);
    var count := 0;
    for i := 0 to |nested|
      invariant count == CountMatches(nested[..i], types)
    {
      assert nested[..i + 1][..i] == nested[..i];
      if nested[i] in types {
        count := count + 1;
      }
    }
    assert nested[..|nested|] == nested;
    if count > 1 {
      return Suppressed;
    }
    if mode == Clean {
      return Erase;
    }
    return Report;
  }

  /** A candidate is acted on when its name is a target and no other segment is. */
  predicate ActedOn(path: string, name: string, types: seq<string>)
  {
    name in types && CountMatches(Split(path), types) <= 1
  }

  /**
   * The four outcomes: nothing for a non-target name; suppression exactly when
   * two distinct segments of the path are target names; otherwise erase in
   * clean mode and report in dry-run mode.
   */
  lemma ClassifyCases(path: string, name: string, types: seq<string>, mode: RunMode)
    ensures Classify(path, name, types, mode) == Ignore <==> name !in types
    ensures Classify(path, name, types, mode) == Suppressed
            <==> name in types
                 && exists i, j :: 0 <= i < j < |Split(path)|
                                   && Split(path)[i] in types && Split(path)[j] in types
    ensures Classify(path, name, types, mode) == Erase <==> ActedOn(path, name, types) && mode == Clean
    ensures Classify(path, name, types, mode) == Report <==> ActedOn(path, name, types) && mode == DryRun
  {
    CountMatchesAboveOne(Split(path), types);
  }

  /** Dry-run mode never yields a deletion; the two modes act on the same candidates. */
  lemma DryRunNeverErases(path: string, name: string, types: seq<string>)
    ensures Classify(path, name, types, DryRun) != Erase
    ensures Classify(path, name, types, Clean) == Erase
            <==> Classify(path, name, types, DryRun) == Report
  {
  }

  /**
   * When the name is the path's last segment, the candidate is suppressed
   * exactly when some earlier segment is also a target name.
   */
  lemma SuppressedIffTargetAncestor(path: string, types: seq<string>, mode: RunMode)
    requires BaseName(path) in types
    ensures Classify(path, BaseName(path), types, mode) == Suppressed
            <==> exists i :: 0 <= i < |Split(path)| - 1 && Split(path)[i] in types
  {
    var segs := Split(path);
    var n := |segs|;
    CountMatchesAboveOne(segs, types);
    if exists i :: 0 <= i < n - 1 && segs[i] in types {
      var i :| 0 <= i < n - 1 && segs[i] in types;
      assert segs[i] in types && segs[n - 1] in types;
    }
  }

  /**
   * A target directory inside another target directory is never acted on:
   * the path `outer + "/" + inner` is suppressed when the outer path's last
   * segment and the inner path's last segment are both target names.
   */
  lemma NestedTargetSuppressed(outer: string, inner: string, types: seq<string>, mode: RunMode)
    requires BaseName(outer) in types
    requires BaseName(inner) in types
    ensures BaseName(outer + "/" + inner) == BaseName(inner)
    ensures Classify(outer + "/" + inner, BaseName(inner), types, mode) == Suppressed
  {
    var a, b := Split(outer), Split(inner);
    SplitAround(outer, inner);
    var segs := a + b;
    assert segs[|segs| - 1] == b[|b| - 1];
    CountMatchesAboveOne(segs, types);
    assert segs[|a| - 1] in types && segs[|segs| - 1] in types;
  }

  /** The target list is read as a set: order and duplicates do not change a decision. */
  lemma ClassifyReadsTypesAsSet(path: string, name: string, types1: seq<string>, types2: seq<string>, mode: RunMode)
    requires forall x :: x in types1 <==> x in types2
    ensures Classify(path, name, types1, mode) == Classify(path, name, types2, mode)
  {
    CountMatchesSameNames(Split(path), types1, types2);
  }

  /**
   * `./target/debug/build/target` with `target` as the target name: the inner
   * `target` is suppressed, for any root and intermediate directory names.
   */
  lemma NestedRustTargetScenario(root: string, d1: string, d2: string, mode: RunMode)
    requires '/' !in root && '/' !in d1 && '/' !in d2
    ensures Classify(root + "/" + "target" + "/" + d1 + "/" + d2 + "/" + "target",
                     "target", ["target"], mode) == Suppressed
  {
    var t := "target";
    assert '/' !in t;
    SplitWithoutSeparator(root);
    SplitWithoutSeparator(d1);
    SplitWithoutSeparator(d2);
    SplitWithoutSeparator(t);
    SplitAround(root, t);
    SplitAround(root + "/" + t, d1);
    SplitAround(root + "/" + t + "/" + d1, d2);
    SplitAround(root + "/" + t + "/" + d1 + "/" + d2, t);
    var segs := Split(root + "/" + t + "/" + d1 + "/" + d2 + "/" + t);
    assert segs == [root, t, d1, d2, t];
    CountMatchesAboveOne(segs, [t]);
    assert segs[1] in [t] && segs[4] in [t];
  }

  /** `./target` with `target` as the target name is erased in clean mode. */
  lemma TopRustTargetScenario(root: string)
    requires '/' !in root && root != "target"
    ensures Classify(root + "/" + "target", "target", ["target"], Clean) == Erase
  {
    var t := "target";
    assert '/' !in t;
    SplitWithoutSeparator(root);
    SplitWithoutSeparator(t);
    SplitAround(root, t);
    var segs := Split(root + "/" + t);
    assert segs == [root, t];
    assert root !in [t];
    assert segs[..1] == [root] && [root][..0] == [];
    assert CountMatches(segs, [t]) == 1;
  }

  /** A path of three segments whose only target segment is the last is acted on. */
  lemma ThreeSegmentsLastTarget(root: string, pkg: string, target: string)
    requires '/' !in root && '/' !in pkg && '/' !in target
    requires root != target && pkg != target
    ensures Split(root + "/" + pkg + "/" + target) == [root, pkg, target]
    ensures ActedOn(root + "/" + pkg + "/" + target, target, [target])
  {
    SplitWithoutSeparator(root);
    SplitWithoutSeparator(pkg);
    SplitWithoutSeparator(target);
    SplitAround(root, pkg);
    SplitAround(root + "/" + pkg, target);
    var segs := Split(root + "/" + pkg + "/" + target);
    assert segs == [root, pkg, target];
    assert root !in [target] && pkg !in [target];
    assert [root][..0] == [];
    assert CountMatches([root], [target]) == 0;
    assert [root, pkg][..1] == [root];
    assert CountMatches([root, pkg], [target]) == 0;
    assert segs[..2] == [root, pkg];
  }

  /**
   * `./pkg/node_modules` with `node_modules` as the target name is acted on:
   * reported in dry-run mode, erased in clean mode.
   */
  lemma PackageNodeModulesScenario(root: string, pkg: string)
    requires '/' !in root && '/' !in pkg
    requires root != "node_modules" && pkg != "node_modules"
    ensures Classify(root + "/" + pkg + "/" + "node_modules", "node_modules", ["node_modules"], DryRun) == Report
    ensures Classify(root + "/" + pkg + "/" + "node_modules", "node_modules", ["node_modules"], Clean) == Erase
  {
    var t := "node_modules";
    assert '/' !in t;
    ThreeSegmentsLastTarget(root, pkg, t);
  }
}

=== FILE: consumer.dfy ===
/**
 * What the single consumer of the entry channel does with each entry: it
 * skips those known to be plain files, skips those that no longer exist, and
 * hands the rest to the classifier, whose erase or report decision becomes
 * one line of output (and, for an erase, one recursive deletion). The receive
 * loop itself is `Vacuum.Consume`.
 */
module Consumer {
  import opened Wrappers
  import opened Registry
  import opened Classifier

  /** The file type the walker resolved for an entry, when it resolved one. */
  datatype FileKind = File | Dir | Symlink

  /**
   * One received entry: its path as displayed, its file name, its file type if
   * known, and whether it still exists when the consumer gets to it.
   */
  datatype Entry = Entry(path: string, name: string, fileType: Option<FileKind>, present: bool)

  /** What handling one entry does: erase the path, or print it as found. */
  datatype Effect = Erased(path: string) | Found(path: string)

  /** The file-type filter: only an entry known to be a file is dropped. */
  predicate PassesFilter(fileType: Option<FileKind>)
  {
    match fileType
    case Some(k) => k != File
    case None => true
  }

  /** An entry reaches the classifier when it passes the filter and still exists. */
  predicate Reaches(e: Entry)
  {
    PassesFilter(e.fileType) && e.present
  }

  /** The effects of one entry. */
  function EntryEffects(e: Entry, types: seq<string>, mode: RunMode): seq<Effect>
  {
    if !Reaches(e) then []
    else
      match Classify(e.path, e.name, types, mode)
      case Erase => [Erased(e.path)]
      case Report => [Found(e.path)]
      case _ => []
  }

  /** The effects of consuming `entries` in order. */
  function Effects(entries: seq<Entry>, types: seq<string>, mode: RunMode): seq<Effect>
  {
    if entries == [] then []
    else Effects(entries[..|entries| - 1], types, mode) + EntryEffects(entries[|entries| - 1], types, mode)
  }

  /** The effect the mode gives an acted-on path. */
  function ActionFor(mode: RunMode, path: string): Effect
  {
    if mode == Clean then Erased(path) else Found(path)
  }

  /** An entry is acted on when it passes the filter, still exists, and the classifier acts on it. */
  predicate Handled(e: Entry, types: seq<string>)
  {
    Reaches(e) && ActedOn(e.path, e.name, types)
  }

  /**
   * The filter drops exactly the entries known to be files (an unknown type
   * passes); a passing entry that still exists yields the mode's action when
   * the classifier acts on it, and nothing otherwise.
   */
  lemma EntryEffectsCases(e: Entry, types: seq<string>, mode: RunMode)
    ensures PassesFilter(e.fileType) <==> e.fileType != Some(File)
    ensures EntryEffects(e, types, mode) == if Handled(e, types) then [ActionFor(mode, e.path)] else []
  {
  }

  /** Consuming a concatenation yields the effects of each part, in order. */
  lemma {:induction false} EffectsAppend(a: seq<Entry>, b: seq<Entry>, types: seq<string>, mode: RunMode)
    ensures Effects(a + b, types, mode) == Effects(a, types, mode) + Effects(b, types, mode)
    decreases |b|
  {
    if b == [] {
      assert a + b == a;
    } else {
      var b', last := b[..|b| - 1], b[|b| - 1];
      var tail := EntryEffects(last, types, mode);
      assert (a + b)[..|a + b| - 1] == a + b';
      assert (a + b)[|a + b| - 1] == last;
      assert Effects(a + b, types, mode) == Effects(a + b', types, mode) + tail;
      EffectsAppend(a, b', types, mode);
      assert Effects(b, types, mode) == Effects(b', types, mode) + tail;
    }
  }

  /**
   * An effect is produced exactly for the entries that are acted on, with the
   * mode's action: an erase in clean mode, a report in dry-run mode.
   */
  lemma {:induction false} EffectsExactly(entries: seq<Entry>, types: seq<string>, mode: RunMode, x: Effect)
    ensures x in Effects(entries, types, mode)
            <==> exists k :: 0 <= k < |entries| && Handled(entries[k], types)
                             && x == ActionFor(mode, entries[k].path)
    decreases |entries|
  {
    if entries != [] {
      var n := |entries|;
      var init := entries[..n - 1];
      var last := entries[n - 1];
      EffectsExactly(init, types, mode, x);
      EntryEffectsCases(last, types, mode);
      if exists k :: 0 <= k < n && Handled(entries[k], types) && x == ActionFor(mode, entries[k].path) {
        var k :| 0 <= k < n && Handled(entries[k], types) && x == ActionFor(mode, entries[k].path);
        if k < n - 1 {
          assert init[k] == entries[k];
        }
      }
      if exists k :: 0 <= k < n - 1 && Handled(init[k], types) && x == ActionFor(mode, init[k].path) {
        var k :| 0 <= k < n - 1 && Handled(init[k], types) && x == ActionFor(mode, init[k].path);
        assert entries[k] == init[k];
      }
    }
  }

  /** Dry-run mode never erases: every effect is a report. */
  lemma {:induction false} DryRunOnlyReports(entries: seq<Entry>, types: seq<string>)
    ensures forall k :: 0 <= k < |Effects(entries, types, DryRun)| ==> Effects(entries, types, DryRun)[k].Found?
    decreases |entries|
  {
    if entries != [] {
      var last := entries[|entries| - 1];
      DryRunOnlyReports(entries[..|entries| - 1], types);
      DryRunNeverErases(last.path, last.name, types);
    }
  }

  /** Each entry yields at most one effect. */
  lemma {:induction false} EffectsAtMostOnePerEntry(entries: seq<Entry>, types: seq<string>, mode: RunMode)
    ensures |Effects(entries, types, mode)| <= |entries|
    decreases |entries|
  {
    if entries != [] {
      EffectsAtMostOnePerEntry(entries[..|entries| - 1], types, mode);
    }
  }

  /** Entries that never reach the classifier yield nothing. */
  lemma {:induction false} UnreachedYieldNothing(entries: seq<Entry>, types: seq<string>, mode: RunMode)
    requires forall k :: 0 <= k < |entries| ==> !Reaches(entries[k])
    ensures Effects(entries, types, mode) == []
    decreases |entries|
  {
    if entries != [] {
      UnreachedYieldNothing(entries[..|entries| - 1], types, mode);
    }
  }
}

=== FILE: housekeeping.dfy ===
/**
 * The housekeeping chores requested by the `cache`, `nvim` and `v` tokens,
 * modelled as decisions: which cache subdirectories are removed, which swap
 * files are reported or removed, and what the V modules chore does. Each
 * chore only reports in dry-run mode. A missing home directory or cache
 * directory aborts the chore, and `RunChores` stops at the first abort.
 */
module Housekeeping {
  import opened Wrappers
  import opened Registry

  /** Why a chore aborts the process. */
  datatype Abort = NoHomeDir | NoCacheDir

  /** Cache subdirectories tried in order, each with the label it is reported under. */
  const CacheTable: seq<(string, string)> := [
    ("go-build", "go build"),
    ("pylint", "pylint"),
    ("pylint", "pylint"),
    ("typescript", "typescript"),
    ("yarn", "yarn"),
    ("chromium", "chromium"),
    ("pip", "pip"),
    ("mozilla", "firefox"),
    ("expo", "RN expo"),
    ("JetBrains", "JetBrains"),
    ("rollup-plugin-rust", "rollup rust"),
    ("nim", "nim"),
    ("eas-cli", "eas"),
    ("deno", "deno"),
    ("esbuild", "esbuild")
  ]

  /**
   * Tries to remove each subdirectory of `table` in order; a removal succeeds
   * when the subdirectory is in `removable`, after which it is gone. Yields the
   * entries that were removed.
   */
  function RemoveCaches(table: seq<(string, string)>, removable: set<string>): seq<(string, string)>
  {
    if table == [] then []
    else if table[0].0 in removable then [table[0]] + RemoveCaches(table[1..], removable - {table[0].0})
    else RemoveCaches(table[1..], removable)
  }

  /**
   * The cache chore. Nothing happens in dry-run mode. Otherwise the cache
   * directory is the platform's, or `.cache` under the home directory when the
   * platform has none; the run aborts when there is no home directory to fall
   * back on or the chosen directory does not exist (`existing` holds the paths
   * that exist). The result lists the removed table entries, in order; each
   * is reported under its label.
   */
  function ClearCache(mode: RunMode, cacheDir: Option<string>, home: Option<string>,
                      existing: set<string>, removable: set<string>): Result<seq<(string, string)>, Abort>
  {
    if mode == DryRun then Success([])
    else if cacheDir.None? && home.None? then Failure(NoHomeDir)
    else
      var dir := if cacheDir.Some? then cacheDir.value else home.value + "/.cache";
      if dir !in existing then Failure(NoCacheDir)
      else Success(RemoveCaches(CacheTable, removable))
  }

  /** Every removed entry is an entry of the table whose subdirectory was removable. */
  lemma {:induction false} RemoveCachesSound(table: seq<(string, string)>, removable: set<string>)
    ensures forall k :: 0 <= k < |RemoveCaches(table, removable)| ==>
              RemoveCaches(table, removable)[k] in table && RemoveCaches(table, removable)[k].0 in removable
    decreases |table|
  {
    if table != [] {
      var d := table[0].0;
      if d in removable {
        RemoveCachesSound(table[1..], removable - {d});
      } else {
        RemoveCachesSound(table[1..], removable);
      }
    }
  }

  /** No subdirectory is removed twice, even when the table names it twice. */
  lemma {:induction false} RemoveCachesNoRepeat(table: seq<(string, string)>, removable: set<string>)
    ensures forall i, j :: 0 <= i < j < |RemoveCaches(table, removable)| ==>
              RemoveCaches(table, removable)[i].0 != RemoveCaches(table, removable)[j].0
    decreases |table|
  {
    if table != [] {
      var d := table[0].0;
      if d in removable {
        var r' := RemoveCaches(table[1..], removable - {d});
        RemoveCachesNoRepeat(table[1..], removable - {d});
        RemoveCachesSound(table[1..], removable - {d});
        assert forall k :: 0 <= k < |r'| ==> r'[k].0 != d;
      } else {
        RemoveCachesNoRepeat(table[1..], removable);
      }
    }
  }

  /** Whether some removed entry is the subdirectory `dir`. */
  predicate Removed(removed: seq<(string, string)>, dir: string)
  {
    exists k :: 0 <= k < |removed| && removed[k].0 == dir
  }

  /** Every removable subdirectory the table names is removed. */
  lemma {:induction false} RemoveCachesComplete(table: seq<(string, string)>, removable: set<string>)
    ensures forall i :: 0 <= i < |table| && table[i].0 in removable ==>
              Removed(RemoveCaches(table, removable), table[i].0)
    decreases |table|
  {
    if table != [] {
      var d := table[0].0;
      var rest := table[1..];
      var r := RemoveCaches(table, removable);
      var removable' := if d in removable then removable - {d} else removable;
      var r' := RemoveCaches(rest, removable');
      RemoveCachesComplete(rest, removable');
      assert r == if d in removable then [table[0]] + r' else r';
      forall i | 0 <= i < |table| && table[i].0 in removable
        ensures Removed(r, table[i].0)
      {
        if table[i].0 == d {
          assert r[0].0 == d;
        } else {
          assert rest[i - 1] == table[i];
          var k :| 0 <= k < |r'| && r'[k].0 == table[i].0;
          if d in removable {
            assert r[k + 1] == r'[k];
          } else {
            assert r[k] == r'[k];
          }
        }
      }
    }
  }

  /**
   * The cache chore acts and aborts only in clean mode: it aborts exactly when
   * there is no directory to use or the chosen one does not exist. When it
   * succeeds it removes exactly the removable subdirectories of the cache
   * table, each at most once, so the duplicated `pylint` entry never yields a
   * second removal.
   */
  lemma ClearCacheDecisions(mode: RunMode, cacheDir: Option<string>, home: Option<string>,
                            existing: set<string>, removable: set<string>)
    ensures mode == DryRun ==> ClearCache(mode, cacheDir, home, existing, removable) == Success([])
    ensures ClearCache(mode, cacheDir, home, existing, removable) == Failure(NoHomeDir)
            <==> mode == Clean && cacheDir.None? && home.None?
    ensures ClearCache(mode, cacheDir, home, existing, removable) == Failure(NoCacheDir)
            <==> mode == Clean && (cacheDir.Some? || home.Some?)
                 && (if cacheDir.Some? then cacheDir.value else home.value + "/.cache") !in existing
    ensures ClearCache(mode, cacheDir, home, existing, removable).Failure?
            <==> mode == Clean
                 && ((cacheDir.None? && home.None?)
                     || (if cacheDir.Some? then cacheDir.value else home.value + "/.cache") !in existing)
    ensures var r := ClearCache(mode, cacheDir, home, existing, removable);
            r.Success? ==>
              && (forall k :: 0 <= k < |r.value| ==> r.value[k] in CacheTable && r.value[k].0 in removable)
              && (forall i, j :: 0 <= i < j < |r.value| ==> r.value[i].0 != r.value[j].0)
              && (mode == Clean ==>
                    forall i :: 0 <= i < |CacheTable| && CacheTable[i].0 in removable ==>
                      Removed(r.value, CacheTable[i].0))
  {
    RemoveCachesSound(CacheTable, removable);
    RemoveCachesNoRepeat(CacheTable, removable);
    RemoveCachesComplete(CacheTable, removable);
  }

  /** One line of the swap-file chore. */
  datatype SwapLine = FoundSwap(path: string) | RemovedSwap(name: string)

  /** The editor's swap directory under a home directory. */
  function SwapDir(home: string): string
  {
    home + "/.local/share/nvim/swap"
  }

  /** The lines of a clean-mode pass over the swap directory: one per file removed. */
  function SwapRemovals(files: seq<string>, removable: set<string>): seq<SwapLine>
  {
    if files == [] then []
    else
      var f := files[|files| - 1];
      SwapRemovals(files[..|files| - 1], removable) + (if f in removable then [RemovedSwap(f)] else [])
  }

  /** What the swap-file chore yields, stated case by case. */
  function SwapOutcome(home: Option<string>, listing: Option<seq<string>>, mode: RunMode, removable: set<string>)
    : Result<seq<SwapLine>, Abort>
  {
    if home.None? then Failure(NoHomeDir)
    else if listing.None? then Success([])
    else if mode == DryRun then
      Success(if listing.value == [] then [] else [FoundSwap(SwapDir(home.value) + "/" + listing.value[0])])
    else Success(SwapRemovals(listing.value, removable))
  }

  /**
   * The swap-file chore over the file names `listing` of the swap directory
   * (`None` when it cannot be read, which ends the chore quietly). Dry-run
   * mode reports the first file and stops; clean mode removes every file it
   * can, naming each one removed.
   */
  method NvimSwap(home: Option<string>, listing: Option<seq<string>>, mode: RunMode, removable: set<string>)
    returns (r: Result<seq<SwapLine>, Abort>)
    ensures r == SwapOutcome(home, listing, mode, removable)
    ensures home.None? ==> r == Failure(NoHomeDir)
    ensures home.Some? && listing.None? ==> r == Success([])
    ensures home.Some? && listing.Some? && mode == DryRun ==>
              r == Success(if listing.value == [] then []
                           else [FoundSwap(SwapDir(home.value) + "/" + listing.value[0])])
    ensures home.Some? && listing.Some? && mode == Clean ==>
              r == Success(SwapRemovals(listing.value, removable))
  {
    if home.None? {
      return Failure(NoHomeDir);
    }
    if listing.None? {
      return Success([]);
    }
    var files := listing.value;
    var lines: seq<SwapLine> := [];
    for i := 0 to |files|
      invariant mode == DryRun ==> i == 0
      invariant lines == SwapRemovals(files[..i], removable)
    {
      var path := SwapDir(home.value) + "/" + files[i];
      if mode == DryRun {
        return Success([FoundSwap(path)]);
      }
      assert files[..i + 1][..i] == files[..i];
      if files[i] in removable {
        lines := lines + [RemovedSwap(files[i])];
      }
    }
    assert files[..|files|] == files;
    return Success(lines);
  }

  /** Clean mode names exactly the removable files, one line per listed file that was removed. */
  lemma {:induction false} SwapRemovalsExactly(files: seq<string>, removable: set<string>, x: SwapLine)
    ensures x in SwapRemovals(files, removable)
            <==> x.RemovedSwap? && x.name in removable && x.name in files
    ensures |SwapRemovals(files, removable)| <= |files|
    decreases |files|
  {
    if files != [] {
      var init := files[..|files| - 1];
      SwapRemovalsExactly(init, removable, x);
      assert files == init + [files[|files| - 1]];
    }
  }

  /** What the V modules chore prints. */
  datatype VLine = FoundV | ErasedV(path: string)

  /**
   * The V modules chore: needs a home directory; in dry-run mode it announces
   * the modules directory without looking at it; in clean mode it removes
   * `.vmodules` under the home directory and announces the erasure whether or
   * not the removal succeeded.
   */
  function VModules(home: Option<string>, mode: RunMode): Result<VLine, Abort>
  {
    if home.None? then Failure(NoHomeDir)
    else if mode == DryRun then Success(FoundV)
    else Success(ErasedV(home.value + "/.vmodules"))
  }

  /**
   * The V modules chore aborts exactly when there is no home directory, in
   * either mode; otherwise dry-run mode only announces, and clean mode always
   * erases `.vmodules` under home.
   */
  lemma VModulesDecisions(home: Option<string>, mode: RunMode)
    ensures VModules(home, mode).Failure? <==> home.None?
    ensures home.Some? && mode == DryRun ==> VModules(home, mode) == Success(FoundV)
    ensures VModules(home, mode).Success? && VModules(home, mode).value.ErasedV? <==> home.Some? && mode == Clean
    ensures VModules(home, mode).Success? && VModules(home, mode).value.ErasedV? ==>
              VModules(home, mode).value.path == home.value + "/.vmodules"
  {
  }

  /**
   * What the chores can observe of the machine: the home directory, the
   * platform cache directory, the paths that exist, the cache subdirectories
   * and swap files whose removal succeeds, and the swap directory's listing.
   */
  datatype Env = Env(
    home: Option<string>,
    cacheDir: Option<string>,
    existing: set<string>,
    cacheRemovable: set<string>,
    swapListing: Option<seq<string>>,
    swapRemovable: set<string>)

  /** What one chore that did not abort reported. */
  datatype ChoreReport =
    | CacheReport(removed: seq<(string, string)>)
    | SwapReport(lines: seq<SwapLine>)
    | VReport(line: VLine)

  /** Runs one chore against the machine. */
  function RunChore(c: Chore, mode: RunMode, env: Env): Result<ChoreReport, Abort>
  {
    match c
    case CacheChore =>
      (match ClearCache(mode, env.cacheDir, env.home, env.existing, env.cacheRemovable)
       case Success(r) => Success(CacheReport(r))
       case Failure(e) => Failure(e))
    case NvimChore =>
      (match SwapOutcome(env.home, env.swapListing, mode, env.swapRemovable)
       case Success(r) => Success(SwapReport(r))
       case Failure(e) => Failure(e))
    case VChore =>
      (match VModules(env.home, mode)
       case Success(r) => Success(VReport(r))
       case Failure(e) => Failure(e))
  }

  /**
   * Runs the chores in order until one aborts: the reports of the chores
   * that completed, and the abort that stopped the sequence, if any.
   */
  function RunChores(chores: seq<Chore>, mode: RunMode, env: Env): (seq<ChoreReport>, Option<Abort>)
  {
    if chores == [] then ([], None)
    else
      match RunChore(chores[0], mode, env)
      case Failure(e) => ([], Some(e))
      case Success(rep) =>
        var rest := RunChores(chores[1..], mode, env);
        ([rep] + rest.0, rest.1)
  }

  /**
   * The chores run in order and stop at the first abort: every report is
   * that of the chore at the same position; with no abort there is one
   * report per chore, and an abort is that of the first chore that aborts.
   */
  lemma {:induction false} RunChoresInOrder(chores: seq<Chore>, mode: RunMode, env: Env)
    ensures |RunChores(chores, mode, env).0| <= |chores|
    ensures forall k :: 0 <= k < |RunChores(chores, mode, env).0| ==>
              RunChore(chores[k], mode, env) == Success(RunChores(chores, mode, env).0[k])
    ensures RunChores(chores, mode, env).1.None?
            <==> forall k :: 0 <= k < |chores| ==> RunChore(chores[k], mode, env).Success?
    ensures RunChores(chores, mode, env).1.None? ==> |RunChores(chores, mode, env).0| == |chores|
    ensures RunChores(chores, mode, env).1.Some? ==>
              |RunChores(chores, mode, env).0| < |chores|
              && RunChore(chores[|RunChores(chores, mode, env).0|], mode, env)
                 == Failure(RunChores(chores, mode, env).1.value)
    decreases |chores|
  {
    if chores != [] {
      var rest := chores[1..];
      RunChoresInOrder(rest, mode, env);
      if RunChore(chores[0], mode, env).Success? {
        var r := RunChores(chores, mode, env);
        var r' := RunChores(rest, mode, env);
        assert r.0 == [RunChore(chores[0], mode, env).value] + r'.0 && r.1 == r'.1;
        forall k | 0 <= k < |r.0|
          ensures RunChore(chores[k], mode, env) == Success(r.0[k])
        {
          if k > 0 {
            assert r.0[k] == r'.0[k - 1] && chores[k] == rest[k - 1];
          }
        }
        if r.1.None? {
          forall k | 0 <= k < |chores| ensures RunChore(chores[k], mode, env).Success? {
            if k > 0 {
              assert chores[k] == rest[k - 1];
            }
          }
        } else {
          assert chores[|r.0|] == rest[|r'.0|];
          assert !RunChore(rest[|r'.0|], mode, env).Success?;
        }
      }
    }
  }

  /** Whether a chore's report records no removal: it only found or announced things. */
  predicate RemovesNothing(rep: ChoreReport)
  {
    match rep
    case CacheReport(removed) => removed == []
    case SwapReport(lines) => forall k :: 0 <= k < |lines| ==> lines[k].FoundSwap?
    case VReport(line) => line == FoundV
  }

  /** In dry-run mode every chore that completes removes nothing. */
  lemma DryRunChoreRemovesNothing(c: Chore, env: Env)
    ensures RunChore(c, DryRun, env).Success? ==> RemovesNothing(RunChore(c, DryRun, env).value)
  {
  }

  /** In dry-run mode only a missing home directory can abort, and the cache chore never does. */
  lemma DryRunChoresAbortOnlyWithoutHome(c: Chore, env: Env)
    ensures RunChore(c, DryRun, env).Failure? <==> c != CacheChore && env.home.None?
  {
  }
}

=== FILE: paths.dfy ===
/**
 * Path strings as the classifier sees them: split on every '/' into segments
 * (empty segments included, as a string split does), and the number of
 * segments that are target names.
 */
module Paths {

  /** The segments between the '/' characters of `s`; "" gives [""], "a/" gives ["a", ""]. */
  function Split(s: string): (r: seq<string>)
    ensures |r| >= 1
    decreases |s|
  {
    if s == [] then [""]
    else if s[0] == '/' then [""] + Split(s[1..])
    else
      var rest := Split(s[1..]);
      [[s[0]] + rest[0]] + rest[1..]
  }

  /** The inverse of `Split`: the segments glued back with '/'. */
  function Join(segs: seq<string>): (s: string)
    requires |segs| >= 1
  {
    if |segs| == 1 then segs[0] else segs[0] + "/" + Join(segs[1..])
  }

  /** The last segment of a path. */
  function BaseName(path: string): string
  {
    var segs := Split(path);
    segs[|segs| - 1]
  }

  /** How many of `segs` are among `names` (each segment counted once, however often it is listed). */
  function CountMatches(segs: seq<string>, names: seq<string>): (n: nat)
    ensures n <= |segs|
  {
    if segs == [] then 0
    else CountMatches(segs[..|segs| - 1], names) + (if segs[|segs| - 1] in names then 1 else 0)
  }

  /** No segment produced by `Split` contains the separator. */
  lemma {:induction false} SplitHasNoSeparator(s: string)
    ensures forall k :: 0 <= k < |Split(s)| ==> '/' !in Split(s)[k]
    decreases |s|
  {
    if s != [] {
      SplitHasNoSeparator(s[1..]);
    }
  }

  /** A string without '/' is a single segment. */
  lemma {:induction false} SplitWithoutSeparator(s: string)
    requires '/' !in s
    ensures Split(s) == [s]
    decreases |s|
  {
    if s != [] {
      assert s[0] in s;
      assert forall c :: c in s[1..] ==> c in s;
      SplitWithoutSeparator(s[1..]);
      assert s == [s[0]] + s[1..];
    }
  }

  /** Splitting around one '/' splits each side independently. */
  lemma {:induction false} SplitAround(a: string, b: string)
    ensures Split(a + "/" + b) == Split(a) + Split(b)
    decreases |a|
  {
    if a == [] {
      assert a + "/" + b == "/" + b;
      assert ("/" + b)[1..] == b;
    } else {
      assert (a + "/" + b)[0] == a[0];
      assert (a + "/" + b)[1..] == a[1..] + "/" + b;
      SplitAround(a[1..], b);
    }
  }

  /** Joining the segments of a string gives the string back. */
  lemma {:induction false} JoinSplit(s: string)
    ensures Join(Split(s)) == s
    decreases |s|
  {
    if s != [] {
      JoinSplit(s[1..]);
      if s[0] == '/' {
        assert ([""] + Split(s[1..]))[1..] == Split(s[1..]);
        assert s == [s[0]] + s[1..];
      } else {
        var rest := Split(s[1..]);
        var r := [[s[0]] + rest[0]] + rest[1..];
        if |rest| == 1 {
          assert s == [s[0]] + s[1..];
        } else {
          assert r[1..] == rest[1..];
          assert Join(rest) == rest[0] + "/" + Join(rest[1..]);
          assert s == [s[0]] + s[1..];
        }
      }
    }
  }

  /** Splitting joined separator-free segments gives the segments back. */
  lemma {:induction false} SplitJoin(segs: seq<string>)
    requires |segs| >= 1
    requires forall k :: 0 <= k < |segs| ==> '/' !in segs[k]
    ensures Split(Join(segs)) == segs
    decreases |segs|
  {
    SplitWithoutSeparator(segs[0]);
    if |segs| > 1 {
      SplitJoin(segs[1..]);
      SplitAround(segs[0], Join(segs[1..]));
      assert segs == [segs[0]] + segs[1..];
    }
  }

  /** Counting a concatenation counts each part. */
  lemma {:induction false} CountMatchesAppend(a: seq<string>, b: seq<string>, names: seq<string>)
    ensures CountMatches(a + b, names) == CountMatches(a, names) + CountMatches(b, names)
    decreases |b|
  {
    if b == [] {
      assert a + b == a;
    } else {
      var b' := b[..|b| - 1];
      assert (a + b)[..|a + b| - 1] == a + b';
      CountMatchesAppend(a, b', names);
    }
  }

  /** Some segment matches exactly when the count is positive. */
  lemma {:induction false} CountMatchesPositive(segs: seq<string>, names: seq<string>)
    ensures CountMatches(segs, names) > 0
            <==> exists i :: 0 <= i < |segs| && segs[i] in names
    decreases |segs|
  {
    if segs != [] {
      var init := segs[..|segs| - 1];
      CountMatchesPositive(init, names);
      if exists i :: 0 <= i < |segs| && segs[i] in names {
        var i :| 0 <= i < |segs| && segs[i] in names;
        if i < |segs| - 1 {
          assert init[i] == segs[i];
        }
      }
      if exists i :: 0 <= i < |init| && init[i] in names {
        var i :| 0 <= i < |init| && init[i] in names;
        assert segs[i] == init[i];
      }
    }
  }

  /** The count exceeds one exactly when two different segments match. */
  lemma {:induction false} CountMatchesAboveOne(segs: seq<string>, names: seq<string>)
    ensures CountMatches(segs, names) > 1
            <==> exists i, j :: 0 <= i < j < |segs| && segs[i] in names && segs[j] in names
    decreases |segs|
  {
    if segs != [] {
      var n := |segs|;
      var init := segs[..n - 1];
      CountMatchesAboveOne(init, names);
      CountMatchesPositive(init, names);
      if exists i, j :: 0 <= i < j < n && segs[i] in names && segs[j] in names {
        var i, j :| 0 <= i < j < n && segs[i] in names && segs[j] in names;
        assert init[i] == segs[i];
        if j < n - 1 {
          assert init[j] == segs[j];
        }
      }
      if CountMatches(segs, names) > 1 {
        if segs[n - 1] in names {
          var i :| 0 <= i < |init| && init[i] in names;
          assert segs[i] == init[i];
        } else {
          var i, j :| 0 <= i < j < |init| && init[i] in names && init[j] in names;
          assert segs[i] == init[i] && segs[j] == init[j];
        }
      }
    }
  }

  /** The count depends only on which names are listed, not on their order or repetition. */
  lemma {:induction false} CountMatchesSameNames(segs: seq<string>, names1: seq<string>, names2: seq<string>)
    requires forall x :: x in names1 <==> x in names2
    ensures CountMatches(segs, names1) == CountMatches(segs, names2)
    decreases |segs|
  {
    if segs != [] {
      CountMatchesSameNames(segs[..|segs| - 1], names1, names2);
    }
  }
}

=== FILE: registry.dfy ===
/**
 * The target registry: the scan of the argument tokens that turns mode tokens
 * into the ordered list of directory names to look for, and that requests the
 * housekeeping chores (`v`, `nvim`, `cache`) in argument order as it goes.
 */
module Registry {
  import opened Wrappers

  /** Whether deletions happen: `Clean` exactly when some argument is `clean`. */
  datatype RunMode = DryRun | Clean

  /** The housekeeping chores a side-effect token requests. */
  datatype Chore = VChore | NvimChore | CacheChore

  function ModeOf(args: seq<string>): RunMode
  {
    if "clean" in args then Clean else DryRun
  }

  /** The four directory names the table can produce. */
  const KnownNames: seq<string> := ["target", "node_modules", "zig-out", "zig-cache"]

  /** The fixed token table: names pushed for one argument token, in push order. */
  function TokenNames(token: string): seq<string>
  {
    match token
    case "rust" => ["target"]
    case "js" => ["node_modules"]
    case "zig" => ["zig-out", "zig-cache"]
    case _ => []
  }

  /** The chore one argument token triggers, if any. */
  function TokenChore(token: string): Option<Chore>
  {
    match token
    case "v" => Some(VChore)
    case "nvim" => Some(NvimChore)
    case "cache" => Some(CacheChore)
    case _ => None
  }

  /** Every name pushed while scanning `args`, token by token. */
  function TypesOf(args: seq<string>): seq<string>
  {
    if args == [] then []
    else TypesOf(args[..|args| - 1]) + TokenNames(args[|args| - 1])
  }

  /** Every chore triggered while scanning `args`, in argument order. */
  function ChoresOf(args: seq<string>): seq<Chore>
  {
    if args == [] then []
    else
      var c := TokenChore(args[|args| - 1]);
      ChoresOf(args[..|args| - 1]) + (if c.Some? then [c.value] else [])
  }

  /**
   * The scan itself. `types` is `None` for the early exit taken when no name was
   * pushed; the chores have been requested by then whatever the outcome.
   */
  method ParseTypes(args: seq<string>) returns (types: Option<seq<string>>, chores: seq<Chore>)
    ensures chores == ChoresOf(args)
    ensures types.None? <==> TypesOf(args) == []
    ensures types.Some? ==> types.value == TypesOf(args) && |types.value| > 0
  {
    var pushed: seq<string> := [];
    chores := [];
    for i := 0 to |args|
      invariant pushed == TypesOf(args[..i])
      invariant chores == ChoresOf(args[..i])
    {
      assert args[..i + 1][..i] == args[..i];
      match args[i]
      case "rust" => pushed := pushed + ["target"];
      case "js" => pushed := pushed + ["node_modules"];
      case "zig" =>
        pushed := pushed + ["zig-out"];
        pushed := pushed + ["zig-cache"];
      case "v" => chores := chores + [VChore];
      case "nvim" => chores := chores + [NvimChore];
      case "cache" => chores := chores + [CacheChore];
      case _ =>
    }
    assert args[..|args|] == args;
    if pushed == [] {
      return None, chores;
    }
    types := Some(pushed);
  }

  /** Scanning a concatenation pushes the names of each part, in order. */
  lemma {:induction false} TypesOfAppend(a: seq<string>, b: seq<string>)
    ensures TypesOf(a + b) == TypesOf(a) + TypesOf(b)
    decreases |b|
  {
    if b == [] {
      assert a + b == a;
    } else {
      var b' := b[..|b| - 1];
      assert (a + b)[..|a + b| - 1] == a + b';
      TypesOfAppend(a, b');
    }
  }

  /** A token that is not `rust`, `js` or `zig` pushes nothing wherever it stands. */
  lemma {:induction false} UnrecognizedTokenPushesNothing(a: seq<string>, t: string, b: seq<string>)
    requires t != "rust" && t != "js" && t != "zig"
    ensures TypesOf(a + [t] + b) == TypesOf(a + b)
  {
    var at := a + [t];
    assert at[..|at| - 1] == a && at[|at| - 1] == t;
    assert TokenNames(t) == [];
    assert TypesOf(at) == TypesOf(a) + TokenNames(t);
    TypesOfAppend(at, b);
    TypesOfAppend(a, b);
  }

  /** Every pushed name is one of the four names of the table. */
  lemma {:induction false} TypesOfAreKnown(args: seq<string>)
    ensures forall k :: 0 <= k < |TypesOf(args)| ==> TypesOf(args)[k] in KnownNames
    decreases |args|
  {
    if args != [] {
      TypesOfAreKnown(args[..|args| - 1]);
    }
  }

  /**
   * Duplicates are kept: the number of names is one per `rust` and per `js`
   * token and two per `zig` token.
   */
  lemma {:induction false} TypesOfLength(args: seq<string>)
    ensures |TypesOf(args)|
            == multiset(args)["rust"] + multiset(args)["js"] + 2 * multiset(args)["zig"]
    decreases |args|
  {
    if args != [] {
      var init := args[..|args| - 1];
      assert args == init + [args[|args| - 1]];
      assert multiset(args) == multiset(init) + multiset{args[|args| - 1]};
      TypesOfLength(init);
    }
  }

  /** Each name is pushed exactly when its token occurs among the arguments. */
  lemma {:induction false} TypesOfMembership(args: seq<string>)
    ensures "target" in TypesOf(args) <==> "rust" in args
    ensures "node_modules" in TypesOf(args) <==> "js" in args
    ensures "zig-out" in TypesOf(args) <==> "zig" in args
    ensures "zig-cache" in TypesOf(args) <==> "zig" in args
    decreases |args|
  {
    if args != [] {
      var init := args[..|args| - 1];
      assert args == init + [args[|args| - 1]];
      TypesOfMembership(init);
    }
  }

  /** The early exit is taken exactly when no argument is a mode token. */
  lemma {:induction false} ZeroTypesIffNoModeToken(args: seq<string>)
    ensures TypesOf(args) == [] <==> ("rust" !in args && "js" !in args && "zig" !in args)
  {
    TypesOfLength(args);
  }

  /** Scanning a concatenation requests the chores of each part, in order. */
  lemma {:induction false} ChoresOfAppend(a: seq<string>, b: seq<string>)
    ensures ChoresOf(a + b) == ChoresOf(a) + ChoresOf(b)
    decreases |b|
  {
    if b == [] {
      assert a + b == a;
    } else {
      var b' := b[..|b| - 1];
      assert (a + b)[..|a + b| - 1] == a + b';
      assert (a + b)[|a + b| - 1] == b[|b| - 1];
      ChoresOfAppend(a, b');
    }
  }

  /** One token requests its own chore, or none. */
  lemma ChoresOfToken(t: string)
    ensures ChoresOf([t]) == if TokenChore(t).Some? then [TokenChore(t).value] else []
    ensures ChoresOf([t]) == match t
                             case "v" => [VChore]
                             case "nvim" => [NvimChore]
                             case "cache" => [CacheChore]
                             case _ => []
  {
  }

  /** One chore per chore token, of the token's kind. */
  lemma {:induction false} ChoresOfCount(args: seq<string>)
    ensures multiset(ChoresOf(args))[VChore] == multiset(args)["v"]
    ensures multiset(ChoresOf(args))[NvimChore] == multiset(args)["nvim"]
    ensures multiset(ChoresOf(args))[CacheChore] == multiset(args)["cache"]
    ensures |ChoresOf(args)| == multiset(args)["v"] + multiset(args)["nvim"] + multiset(args)["cache"]
    decreases |args|
  {
    if args != [] {
      var init := args[..|args| - 1];
      var last := args[|args| - 1];
      assert args == init + [last];
      assert multiset(args) == multiset(init) + multiset{last};
      ChoresOfCount(init);
      var tail := ChoresOf([last]);
      ChoresOfAppend(init, [last]);
      ChoresOfToken(last);
      assert multiset(ChoresOf(args)) == multiset(ChoresOf(init)) + multiset(tail);
      if last == "v" {
        assert tail == [VChore];
      } else if last == "nvim" {
        assert tail == [NvimChore];
      } else if last == "cache" {
        assert tail == [CacheChore];
      } else {
        assert tail == [];
      }
    }
  }
}

=== FILE: vacuum.dfy ===
/**
 * One run of the tool as the consumer thread lives it. The argument scan is
 * lazy: it runs, with its chores and its zero-types exit, when the first
 * entry reaches the classifier. A chore that aborts kills the consumer
 * before any entry is classified; with no target name the process exits
 * before any entry is classified; otherwise every entry is handled with the
 * names and the run mode.
 */
module Vacuum {
  import opened Wrappers
  import opened Registry
  import opened Classifier
  import opened Consumer
  import opened Housekeeping

  /** How a run ends. */
  datatype RunOutcome =
      /** No entry reached the classifier: the arguments were never scanned. */
    | Quiet
      /** A chore aborted during the scan; nothing was classified. */
    | Aborted(reports: seq<ChoreReport>, reason: Abort)
      /** The scan produced no target name and the process exited. */
    | ZeroTypes(reports: seq<ChoreReport>)
      /** Every entry was handled with the target names. */
    | Walked(reports: seq<ChoreReport>, types: seq<string>, effects: seq<Effect>)
  {
    /** The erase and report lines of the run. */
    function Classified(): seq<Effect>
    {
      if Walked? then effects else []
    }
  }

  /** Whether some entry reaches the classifier. */
  predicate SomeReaches(entries: seq<Entry>)
  {
    exists k :: 0 <= k < |entries| && Reaches(entries[k])
  }

  function Run(args: seq<string>, env: Env, entries: seq<Entry>): RunOutcome
  {
    if !SomeReaches(entries) then Quiet
    else
      var mode := ModeOf(args);
      var ran := RunChores(ChoresOf(args), mode, env);
      if ran.1.Some? then Aborted(ran.0, ran.1.value)
      else if TypesOf(args) == [] then ZeroTypes(ran.0)
      else Walked(ran.0, TypesOf(args), Effects(entries, TypesOf(args), mode))
  }

  /**
   * The receive loop of the consumer thread: entries in channel order, the
   * lazy scan at the first entry that passes the filter and still exists,
   * then the classifier for that entry and every later one.
   */
  method Consume(args: seq<string>, env: Env, entries: seq<Entry>) returns (outcome: RunOutcome)
    ensures outcome == Run(args, env, entries)
  {
    var mode := ModeOf(args);
    var started := false;
    var types: seq<string> := [];
    var reports: seq<ChoreReport> := [];
    var effects: seq<Effect> := [];
    for i := 0 to |entries|
      invariant !started ==> effects == [] && forall k :: 0 <= k < i ==> !Reaches(entries[k])
      invariant started ==> exists k :: 0 <= k < i && Reaches(entries[k])
      invariant started ==> types == TypesOf(args) && types != []
      invariant started ==> RunChores(ChoresOf(args), mode, env) == (reports, None)
      invariant started ==> effects == Effects(entries[..i], types, mode)
    {
      assert entries[..i + 1][..i] == entries[..i];
      var dent := entries[i];
      if dent.fileType.Some? && dent.fileType.value == File {
        continue;
      }
      if dent.present {
        assert Reaches(dent);
        if !started {
          var parsed, chores := ParseTypes(args);
          var ran := RunChores(chores, mode, env);
          if ran.1.Some? {
            return Aborted(ran.0, ran.1.value);
          }
          if parsed.None? {
            return ZeroTypes(ran.0);
          }
          UnreachedYieldNothing(entries[..i], parsed.value, mode);
          started, types, reports := true, parsed.value, ran.0;
        }
        var d := HandlePath(dent.path, dent.name, types, mode);
        if d == Erase {
          effects := effects + [Erased(dent.path)];
        } else if d == Report {
          effects := effects + [Found(dent.path)];
        }
      }
    }
    assert entries[..|entries|] == entries;
    if !started {
      return Quiet;
    }
    return Walked(reports, types, effects);
  }

  /**
   * The arguments are scanned, and the chores run in order, exactly when some
   * entry reaches the classifier. The run aborts exactly when a chore aborts,
   * exits with zero types exactly when no chore aborts and no mode token is
   * given, and otherwise walks. A walked run classifies exactly the acted-on
   * entries, each with the mode's action on its path. Without `clean` nothing
   * is erased, neither by the classifier nor by a chore; with it the erased
   * paths are exactly those of the acted-on entries of a walked run.
   */
  lemma RunDecisions(args: seq<string>, env: Env, entries: seq<Entry>)
    ensures Run(args, env, entries).Quiet? <==> forall k :: 0 <= k < |entries| ==> !Reaches(entries[k])
    ensures !Run(args, env, entries).Quiet? ==>
              Run(args, env, entries).reports == RunChores(ChoresOf(args), ModeOf(args), env).0
    ensures Run(args, env, entries).Aborted?
            <==> SomeReaches(entries)
                 && exists k :: 0 <= k < |ChoresOf(args)| && RunChore(ChoresOf(args)[k], ModeOf(args), env).Failure?
    ensures Run(args, env, entries).ZeroTypes?
            <==> SomeReaches(entries)
                 && (forall k :: 0 <= k < |ChoresOf(args)| ==> RunChore(ChoresOf(args)[k], ModeOf(args), env).Success?)
                 && "rust" !in args && "js" !in args && "zig" !in args
    ensures "clean" !in args ==>
              forall k :: 0 <= k < |Run(args, env, entries).Classified()| ==> Run(args, env, entries).Classified()[k].Found?
    ensures "clean" !in args && !Run(args, env, entries).Quiet? ==>
              forall k :: 0 <= k < |Run(args, env, entries).reports| ==> RemovesNothing(Run(args, env, entries).reports[k])
    ensures forall x :: x in Run(args, env, entries).Classified()
              <==> Run(args, env, entries).Walked?
                   && exists k :: 0 <= k < |entries| && Handled(entries[k], TypesOf(args))
                                  && x == ActionFor(ModeOf(args), entries[k].path)
    ensures forall p :: Erased(p) in Run(args, env, entries).Classified()
              <==> "clean" in args && Run(args, env, entries).Walked?
                   && exists k :: 0 <= k < |entries| && Handled(entries[k], TypesOf(args)) && entries[k].path == p
  {
    var mode := ModeOf(args);
    ZeroTypesIffNoModeToken(args);
    RunChoresInOrder(ChoresOf(args), mode, env);
    var types := TypesOf(args);
    var r := Run(args, env, entries);
    if "clean" !in args {
      var chores := ChoresOf(args);
      forall k | 0 <= k < |RunChores(chores, DryRun, env).0|
        ensures RemovesNothing(RunChores(chores, DryRun, env).0[k])
      {
        DryRunChoreRemovesNothing(chores[k], env);
      }
    }
    if r.Walked? {
      forall x
        ensures x in Effects(entries, types, mode)
                <==> exists k :: 0 <= k < |entries| && Handled(entries[k], types) && x == ActionFor(mode, entries[k].path)
      {
        EffectsExactly(entries, types, mode, x);
      }
      if "clean" !in args {
        DryRunOnlyReports(entries, types);
      } else {
        forall p
          ensures Erased(p) in Effects(entries, types, Clean)
                  <==> exists k :: 0 <= k < |entries| && Handled(entries[k], types) && entries[k].path == p
        {
          EffectsExactly(entries, types, Clean, Erased(p));
        }
      }
    }
  }

  /** A stream of plain files only, or an empty one, runs no chore and prints or removes nothing. */
  lemma QuietRunDoesNothing(args: seq<string>, env: Env, entries: seq<Entry>)
    requires forall k :: 0 <= k < |entries| ==> entries[k].fileType == Some(File)
    ensures Run(args, env, entries) == Quiet
  {
  }
}

=== FILE: wrappers.dfy ===
/** Option and Result values used for the early exit and the aborting paths. */
module Wrappers {

  datatype Option<+T> = None | Some(value: T)

  datatype Result<+R, +E> = Success(value: R) | Failure(error: E)
}
